=== FILE: README.md ===
# Breakout motion-and-collision engine in Dafny

This project models the core of a Breakout game, `blockbreaker.js`. In that game a
ball bounces around a 640 x 480 canvas. A paddle steered with the arrow keys
deflects it, and a grid of 4 x 10 blocks is knocked out when the ball hits them.
Every quantity in the source is an integer pixel count, so Dafny's `int` is exact
here. The ball speed is 0 or ±4 per tick, the paddle step is 6, and the canvas
centre is 320.

The model has three modules, one per layer of the source:

- `Geometry` (`geometry.dfy`) holds the `Box` body with its position, size,
  velocity and the four role flags. It also holds the strict interval test
  `intervalsOverlap` and the rectangle test `Box.intersects`.
- `Resolver` (`resolver.dfy`) holds the ball's per-tick motion `Box.update`. It is
  a pure function from the ball and a sequence of obstacles to the new ball and the
  new obstacles. The X phase steps the ball, then visits the obstacles left to
  right; each hit undoes the step with the current velocity, knocks a breakable
  obstacle to `minY = -1000`, and then bounces. Off the paddle the bounce reverses
  the velocity; on the paddle it follows the zone rule against `paddle.minX + 55`.
  The Y phase does the same on the other axis. A ball with `xVel == 0` is first
  given `xVel = 4` (`ballVelocity`).
- `Session` (`session.dfy`) holds the constructor's initial state, `resetGame`,
  `resetBall` and the tick `Breakout.update`. The tick first moves the paddle,
  clamped to the canvas. It then passes the `paused`, `replayGame` and `loadGame`
  gates, any of which can end it early. Next it checks for a lost ball and for a
  cleared board. Last, it moves the ball against the paddle, the blocks and three
  canvas edges that are built afresh each tick. The key map is the record `Keys`
  of the five keys read: ArrowLeft, ArrowRight, `p`, `r` and `q`.

The source mutates the ball and the obstacles through shared references. The
model threads them through functions instead. The obstacle list of a tick is
built from the paddle and blocks as they stand after the loss and win checks.
After the ball moves, the paddle and blocks are read back out of the resulting
list. This matches the source: its list holds references to the same paddle and
block objects that the resets mutate, and its edges do not depend on the state.

Some of the code's behaviour is easy to misread. The model follows the code as
written:

- The code has three edge obstacles (top, left, right); the bottom edge is
  commented out.
- The code does not exclude knocked-out blocks from the collision test. They stay
  in the list at `minY = -1000`, and `isActive` is never cleared.
- The edges are breakable, like every freshly constructed box, so an edge that is
  hit is knocked to `minY = -1000` for the rest of that tick.
- The paddle-zone offset is the constant 55, not derived from the paddle width.

## Model

| member | source | states |
|---|---|---|
| `Geometry.IntervalsOverlap` | blockbreaker.js:466-473 | For non-empty intervals the strict test equals `max(a,c) < min(b,d)`; the termination measure shows that at most one swap happens. |
| `Geometry.OverlapSymmetric` | blockbreaker.js:466-473 | The test is symmetric in its two intervals when both are non-empty or their lower bounds differ. |
| `Geometry.TouchingIntervalsDoNotOverlap` | blockbreaker.js:466-473 | Intervals that only touch (`b == c`) do not overlap, in either argument order. |
| `Geometry.Intersects` | blockbreaker.js:363-376 | For solid boxes, the rectangles intersect iff, on both axes, the larger lower edge is strictly below the smaller upper edge. |
| `Geometry.IntersectsIffSharedPixel` | blockbreaker.js:363-376 | Solid boxes intersect exactly when some pixel lies inside both half-open rectangles. |
| `Geometry.IntersectsSymmetric` | blockbreaker.js:363-376 | For solid boxes, `intersects` is symmetric. |
| `Geometry.FlushBoxesDoNotIntersect` | blockbreaker.js:363-376 | Boxes whose edges are flush horizontally or vertically do not collide, in either order. |
| `Resolver.PaddleBounce` | blockbreaker.js:393-407 | The paddle rule keeps the speed's magnitude; it gives a non-positive velocity left of `paddle.minX + 55` and a non-negative one otherwise. |
| `Resolver.BounceX` | blockbreaker.js:384-412 | An X-phase hit undoes the step with the current velocity and changes nothing but `minX` and `xVel`. The magnitude of `xVel` is kept. Off the paddle `xVel` is reversed. On the paddle it is non-positive left of `paddle.minX + 55` and non-negative otherwise. |
| `Resolver.BounceY` | blockbreaker.js:422-452 | A Y-phase hit undoes the step and reverses `yVel`. A ball with `xVel == 0` is first given `xVel = 4` (`ballVelocity`, lines 345-347), so off the paddle `xVel` is 4 or unchanged. On the paddle `xVel` is strictly negative left of `paddle.minX + 55` and strictly positive otherwise, with its magnitude kept. |
| `Resolver.SweepX` | blockbreaker.js:381-416 | The X-phase loop keeps the obstacle list's length and order, changes only breakable obstacles and only their `minY` to -1000, changes only the ball's `minX` and `xVel`, and keeps `abs(xVel)`. |
| `Resolver.SweepY` | blockbreaker.js:419-455 | The Y-phase loop has the same confinement; it changes only the ball's `minY` and velocities, keeps `abs(yVel)`, keeps `abs(xVel)` when non-zero, and otherwise leaves it 0 or of size 4. |
| `Resolver.Update` | blockbreaker.js:378-456 | A whole `Box.update` keeps collision effects confined, keeps the ball's size and flags, keeps `abs(yVel)`, and keeps `abs(xVel)` except that a resting ball may be served at 4. |
| `Resolver.SweepXMiss` | blockbreaker.js:381-416 | When the stepped ball touches no obstacle, the X phase leaves the ball at its stepped position with its velocity, and leaves the obstacles unchanged. |
| `Resolver.SweepYMiss` | blockbreaker.js:419-455 | When the stepped ball touches no obstacle, the Y phase changes nothing. |
| `Resolver.FreeFlight` | blockbreaker.js:378-456 | With nothing in the way, the ball advances by exactly `xVel` and `yVel`, and neither velocity changes. |
| `Resolver.SweepXSingleHit` | blockbreaker.js:381-416 | Suppose the ball starts clear and its first contact after the X step is `obs[k]`. Then the step is undone, `xVel` is negated (or set by the paddle rule), only `obs[k]` is struck, and nothing else changes. |
| `Resolver.SweepYSingleHit` | blockbreaker.js:419-455 | The same holds for the Y phase: `minY` is restored and `yVel` negated. A resting ball is served at 4 before the paddle rule applies. |
| `Resolver.ServeOnContact` | blockbreaker.js:421-426 | A ball with `xVel == 0` leaves the Y phase with non-zero `xVel` exactly when its stepped position touches an obstacle; the new speed is then 4. |
| `Resolver.SweepXEndsClear` | blockbreaker.js:381-416 | If the pre-step position is clear, the X phase ends at the stepped or the pre-step position, clear of every obstacle. |
| `Resolver.SweepYEndsClear` | blockbreaker.js:419-455 | If the pre-step position is clear, the Y phase ends at the stepped or the pre-step position, clear of every obstacle. |
| `Resolver.UpdateKeepsBallClear` | blockbreaker.js:378-456 | Suppose the ball starts clear of all obstacles and the -1000 row is out of its reach. Then after `Box.update` it overlaps none of the resulting obstacles. |
| `Resolver.WedgedBallUndoesTwice` | blockbreaker.js:383-412 | A second hit in one phase undoes again with the already reversed velocity. A wedged ball therefore ends at its stepped position, overlapping both obstacles. |
| `Session.MovePaddle` | blockbreaker.js:139-151 | The arrow keys move only the paddle's `minX` by 6, clamped at 0 and at `640 - width`; a paddle on the canvas stays on it. With both keys held, the clamped left move comes first and the clamped right move then starts from its result. At the left edge this is not a no-op: 3 becomes 0, then 6. |
| `Session.HoldLeftStopsAtEdge` | blockbreaker.js:140-145 | After n paddle moves with only ArrowLeft held, the paddle's `minX` is `max(0, minX - 6n)`. |
| `Session.ResetBlocks` | blockbreaker.js:84-95 | The reset puts the first 40 blocks back at their grid places and sets `isActive`. Every other field of those blocks is kept: size, velocity, and the paddle, ball and breakable flags. Blocks beyond the first 40 are untouched. |
| `Session.ResetGame` | blockbreaker.js:72-102 | `resetGame` puts the ball at (320, 200) with velocity (0, 4) and the paddle at (265, 430). It sets three lives, raises the replay overlay, clears `gameOver`, and changes nothing else. A board whose blocks are on the grid comes back as the constructed grid. On a valid session the result is valid again, and its ball, paddle and blocks are those the constructor built. |
| `Session.ResetBall` | blockbreaker.js:104-119 | `resetBall` puts the ball and paddle back as `resetGame` does and clears `gameOver` and `paused`. Lives, blocks, the outcome and the overlay flags are untouched. On a valid session the result is valid again, and its ball and paddle are those the constructor built. |
| `Session.Init` | blockbreaker.js:3-70 | The constructed session satisfies the invariant `Valid` and its board is not cleared. The intro overlay is up, it is neither paused nor on the replay overlay, and no outcome is set. |
| `Session.Edges` | blockbreaker.js:183-211 | A tick has three edge obstacles, all solid and breakable, and none of them a paddle. `Session.EdgesLeaveBottomOpen` places them. |
| `Session.EdgesLeaveBottomOpen` | blockbreaker.js:183-211 | A ball inside the canvas touches no edge, and neither does a ball wholly below it, since there is no bottom edge. A ball poking out past the top, within the canvas width, hits the top edge. One poking out past the left or right side, within the canvas height, hits the left or right edge. |
| `Session.Obstacles` | blockbreaker.js:177-211 | The obstacle list is the paddle, then the blocks in order, then the three edges. |
| `Session.GoneCount` | blockbreaker.js:237-241 | The number of blocks counted at -1000 is at most the number of blocks. `Session.GoneCountFull` pins it. |
| `Session.Win` | blockbreaker.js:242-246 | A cleared board ends the round as won. It shows the replay overlay, gives three lives and leaves `gameOver` down, because the reset clears the flag the win sets. The pause and intro flags are kept, and a board on the grid comes back as the constructed grid. |
| `Session.Judge` | blockbreaker.js:218-248 | With no lost ball and no cleared board, the checks change nothing. Otherwise the ball is served again from (320, 200), the paddle is sent home, and `gameOver` is down. The intro flag and the number of blocks are kept, and the checks never pause the game. |
| `Session.Step` | blockbreaker.js:138-253 | `p` toggles `paused` unless `gameOver` is set. Once past the pause gate, `r` clears `replayGame`; a paused tick keeps it. A tick stopped at a gate keeps `loadGame` (only a tick past the replay gate can clear it) and changes nothing else but the paddle. A tick that passes the gates ends neither paused nor on the intro overlay. The number of blocks is kept either way. |
| `Session.PauseFreezesPlay` | blockbreaker.js:153-159 | Over any run of ticks without `p`, a paused session stays paused, and its ball, blocks, lives and outcome do not change. |
| `Session.ResetRestoresGrid` | blockbreaker.js:84-95 | On a board whose blocks are at their grid places or knocked out, the reset restores exactly the constructed grid. |
| `Session.GridIsDisjoint` | blockbreaker.js:38-56 | The constructed 40 blocks at `(10 + 62j, 45 + 35i)` do not overlap each other and lie within the canvas width. |
| `Session.InitIsConstructed` | blockbreaker.js:3-70 | The constructed session holds the constructed ball, paddle and 40-block grid, and three lives. This grid is the one that `ResetRestoresGrid` and `ClearedBoard` restore. |
| `Session.GoneCountFull` | blockbreaker.js:236-248 | The count of blocks at -1000 equals the number of blocks exactly when every block is at -1000. |
| `Session.LoseLife` | blockbreaker.js:220-234 | A lost ball costs one life and sends the ball and paddle back to the start. On the last life the round is lost: three lives again, the replay overlay up, and the blocks reset. |
| `Session.LostBall` | blockbreaker.js:220-248 | At the check stage, a lost ball on a valid board drops a life, or on the last life ends the round as lost with the constructed grid restored. |
| `Session.ClearedBoard` | blockbreaker.js:236-248 | When every block is at -1000 and the ball is in play, the round is won: replay overlay up, three lives, and the constructed grid restored. |
| `Session.Advance` | blockbreaker.js:177-249 | Moving the ball changes only the ball, paddle and blocks, and keeps the number of blocks. Each block either stays as it was or, if breakable, moves to -1000. The unbreakable paddle is kept exactly. |
| `Session.GatedTickFreezesPlay` | blockbreaker.js:153-175 | A tick that stops at the pause, replay or intro gate leaves the ball, blocks, lives and outcome as they were; only the paddle moves. |
| `Session.RunningTick` | blockbreaker.js:153-175 | A tick that passes all three gates has all three gate flags down, and goes on to the checks and the ball's motion. |
| `Session.JudgeKeepsValid` | blockbreaker.js:218-248 | The loss and win checks keep the invariant. |
| `Session.AdvanceKeepsValid` | blockbreaker.js:249 | The ball's motion keeps the invariant and leaves the paddle exactly as it was. It also keeps the blocks at their places or knocked out, and the ball's speeds at 0 or 4 across and 4 vertically. |
| `Session.StepKeepsValid` | blockbreaker.js:138-253 | Every tick keeps the invariant. In particular `1 <= lives <= 3` holds and `0 <= paddle.minX <= 640 - paddle.width`. |
| `Session.StepLives` | blockbreaker.js:138-253 | Lives change only in a running tick. A cleared board gives 3, a lost ball gives one fewer, and losing the last life gives 3. |
| `Session.LeftZoneSendsBallLeft` | blockbreaker.js:434-449 | A ball moving right that lands on the paddle at x = 310 (left of 265 + 55) rebounds up and to the left. |

## Left out

- `mainLoop` (blockbreaker.js:121-136) is left out. Its frame throttling reads a clock, and the FPS value is written into the page. The model's `Step` is one call of `update`.
- `draw` and `Box.draw` only render to the canvas.
- The `sound` field, `playSound` and `pauseSound` play audio and are treated as no-ops.
- The block colours and `randomizeColor` (which uses `Math.random`) are cosmetic; `Box` has no colour field.
- The `console.log` calls in `Box.update` only print debugging output.
- The canvas and `getContext` setup is fixed as the constants 640 and 480.
- `resetGame` and `resetBall` set `isPaddle` on the session object itself, a field nothing reads.
- `Session.Cleared`: the source's loop compares the running count with the number of blocks inside every iteration. The model compares once, after counting. The two agree, because the count can only reach the length at the last block, and an empty list never triggers the check.
- `Resolver.UpdateKeepsBallClear`: the ball is only shown to stay clear of obstacles when it starts clear and the -1000 row is out of its reach. In general this does not hold, as `Resolver.WedgedBallUndoesTwice` shows.
- `Session.LostBall` and `Session.ClearedBoard` state the outcome at the check stage. The ball's motion in the same tick only changes the ball, the paddle and the blocks (`Session.Advance`), so the lives, outcome and overlay flags they state are also those at the end of the tick.

=== FILE: geometry.dfy ===
/**
  Rectangular bodies of the Breakout engine and the axis-aligned overlap test
  the collision resolver is built on (the `Box` class and `intervalsOverlap`
  of blockbreaker.js). All coordinates are integer pixels on a 640 x 480 canvas.
 */
module Geometry {

  /** A body: top-left corner, size, velocity in pixels per tick, and the four
      role flags of the source. The cosmetic colour is not modelled. */
  datatype Box = Box(
    minX: int, minY: int,
    width: int, height: int,
    xVel: int, yVel: int,
    isPaddle: bool, isBall: bool, isBreakable: bool, isActive: bool)
  {
    /** Right edge (exclusive). */
    function MaxX(): int { minX + width }

    /** Bottom edge (exclusive). */
    function MaxY(): int { minY + height }

    /** Positive width and height. */
    predicate Solid() { width > 0 && height > 0 }

    /** The pixel (x, y) lies inside the half-open rectangle. */
    predicate Contains(x: int, y: int) {
      minX <= x < MaxX() && minY <= y < MaxY()
    }
  }

  /** The field values a freshly constructed `Box` has before the caller sets any. */
  const DefaultBox := Box(10, 30, 20, 20, 1, 1, false, false, true, true)

  function Min(x: int, y: int): int { if x <= y then x else y }

  function Max(x: int, y: int): int { if x >= y then x else y }

  /** Strict overlap of the intervals [a, b] and [c, d]: the pair is ordered by
      lower bound with at most one swap (the decreases clause bounds the
      recursion depth by one), then the lower interval's upper bound must lie
      strictly above the other's lower bound. */
  function IntervalsOverlap(a: int, b: int, c: int, d: int): (r: bool)
    decreases if a > c then 1 else 0
    ensures a < b && c < d ==> (r <==> Max(a, c) < Min(b, d))
  {
    if a > c then IntervalsOverlap(c, d, a, b) else b > c
  }

  /** For non-empty intervals, or distinct lower bounds, the argument order does not matter. */
  lemma OverlapSymmetric(a: int, b: int, c: int, d: int)
    requires (a < b && c < d) || a != c
    ensures IntervalsOverlap(a, b, c, d) == IntervalsOverlap(c, d, a, b)
  {
  }

  /** Touching intervals, [a, b] followed by [b, d], never overlap, in either order. */
  lemma TouchingIntervalsDoNotOverlap(a: int, b: int, d: int)
    requires a < b && b < d
    ensures !IntervalsOverlap(a, b, b, d)
    ensures !IntervalsOverlap(b, d, a, b)
  {
  }

  /** The rectangle test: the x-intervals and the y-intervals both overlap. For
      solid boxes this is the usual max-of-mins below min-of-maxes condition. */
  function Intersects(p: Box, q: Box): (r: bool)
    ensures p.Solid() && q.Solid() ==>
              (r <==> (Max(p.minX, q.minX) < Min(p.MaxX(), q.MaxX())
                       && Max(p.minY, q.minY) < Min(p.MaxY(), q.MaxY())))
  {
    IntervalsOverlap(p.minX, p.MaxX(), q.minX, q.MaxX())
    && IntervalsOverlap(p.minY, p.MaxY(), q.minY, q.MaxY())
  }

  /** Only position and size take part in the test: velocities and flags do not. */
  lemma IntersectsIgnoresMotion(p: Box, p': Box, q: Box)
    requires p'.minX == p.minX && p'.minY == p.minY
    requires p'.width == p.width && p'.height == p.height
    ensures Intersects(p', q) == Intersects(p, q)
  {
  }

  /** Two solid boxes intersect exactly when some pixel lies in both. */
  lemma IntersectsIffSharedPixel(p: Box, q: Box)
    requires p.Solid() && q.Solid()
    ensures Intersects(p, q) <==> exists x, y :: p.Contains(x, y) && q.Contains(x, y)
  {
    if Intersects(p, q) {
      var x, y := Max(p.minX, q.minX), Max(p.minY, q.minY);
      assert p.Contains(x, y) && q.Contains(x, y);
    }
    if exists x, y :: p.Contains(x, y) && q.Contains(x, y) {
      var x, y :| p.Contains(x, y) && q.Contains(x, y);
      assert Max(p.minX, q.minX) <= x < Min(p.MaxX(), q.MaxX());
      assert Max(p.minY, q.minY) <= y < Min(p.MaxY(), q.MaxY());
    }
  }

  /** For solid boxes the test is symmetric. */
  lemma IntersectsSymmetric(p: Box, q: Box)
    requires p.Solid() && q.Solid()
    ensures Intersects(p, q) == Intersects(q, p)
  {
    OverlapSymmetric(p.minX, p.MaxX(), q.minX, q.MaxX());
    OverlapSymmetric(p.minY, p.MaxY(), q.minY, q.MaxY());
  }

  /** Boxes whose edges are flush, horizontally or vertically, do not collide. */
  lemma FlushBoxesDoNotIntersect(p: Box, q: Box)
    requires p.Solid() && q.Solid()
    requires p.MaxX() == q.minX || p.MaxY() == q.minY
    ensures !Intersects(p, q) && !Intersects(q, p)
  {
  }
}

=== FILE: resolver.dfy ===
/**
  The ball's per-tick motion (`Box.update` in blockbreaker.js): an X phase that
  steps, tests every obstacle in order and undoes and bounces on each hit, then
  a Y phase that does the same on the other axis. The source mutates the ball and
  the obstacles in place; here the ball and the obstacle sequence are threaded
  through pure functions, left to right, so each test sees the ball as the
  earlier obstacles left it.
 */
module Resolver {
  import opened Geometry

  /** The y coordinate a breakable obstacle is moved to when it is hit. */
  const Gone := -1000

  /** Paddle hits left of the paddle's left edge plus this offset send the ball left. */
  const ZoneOffset := 55

  /** The horizontal speed a ball resting with no horizontal motion gets on a Y-phase hit. */
  const ServeSpeed := 4

  /** The ball and the obstacles after (part of) a tick. */
  datatype Resolved = Resolved(ball: Box, obstacles: seq<Box>)

  function Abs(x: int): nat { if x < 0 then -x else x }

  /** The obstacle after the ball hit it: a breakable one is knocked off-canvas. */
  function Struck(o: Box): Box {
    if o.isBreakable then o.(minY := Gone) else o
  }

  /** `after` is `before`, or `before` knocked off-canvas because it is breakable. */
  predicate SameOrGone(before: Box, after: Box) {
    after == before || (before.isBreakable && after == before.(minY := Gone))
  }

  /** Collision side effects are confined: same length and order, and each
      obstacle either unchanged or a breakable one moved to `Gone`. */
  predicate Confined(before: seq<Box>, after: seq<Box>) {
    && |after| == |before|
    && forall i :: 0 <= i < |before| ==> SameOrGone(before[i], after[i])
  }

  /** The paddle-zone rule: left of the paddle's left edge plus `ZoneOffset` the
      horizontal velocity is made non-positive, otherwise non-negative; its
      magnitude is kept either way. */
  function PaddleBounce(ballMinX: int, xVel: int, paddle: Box): (r: int)
    ensures Abs(r) == Abs(xVel)
    ensures ballMinX < paddle.minX + ZoneOffset ==> r <= 0
    ensures ballMinX >= paddle.minX + ZoneOffset ==> r >= 0
  {
    if ballMinX < paddle.minX + ZoneOffset then
      (if xVel > 0 then -xVel else xVel)
    else
      Abs(xVel)
  }

  /** The ball after an X-phase hit on `o`: the step is undone with the current
      velocity, then the velocity follows the paddle rule or is reversed. */
  function BounceX(ball: Box, o: Box): (r: Box)
    ensures r == ball.(minX := ball.minX - ball.xVel, xVel := r.xVel)
    ensures Abs(r.xVel) == Abs(ball.xVel)
    ensures !o.isPaddle ==> r.xVel == -ball.xVel
    ensures o.isPaddle && r.minX < o.minX + ZoneOffset ==> r.xVel <= 0
    ensures o.isPaddle && r.minX >= o.minX + ZoneOffset ==> r.xVel >= 0
  {
    var back := ball.(minX := ball.minX - ball.xVel);
    if o.isPaddle then back.(xVel := PaddleBounce(back.minX, back.xVel, o))
    else back.(xVel := -back.xVel)
  }

  /** The ball after a Y-phase hit on `o`: a ball with no horizontal motion is
      served at `ServeSpeed`, the step is undone, the paddle rule applies to the
      horizontal velocity, and the vertical velocity is always reversed. */
  function BounceY(ball: Box, o: Box): (r: Box)
    ensures r == ball.(minY := ball.minY - ball.yVel, xVel := r.xVel, yVel := -ball.yVel)
    ensures Abs(r.xVel) == if ball.xVel == 0 then ServeSpeed else Abs(ball.xVel)
    ensures !o.isPaddle ==> r.xVel == if ball.xVel == 0 then ServeSpeed else ball.xVel
    ensures o.isPaddle && r.minX < o.minX + ZoneOffset ==> r.xVel < 0
    ensures o.isPaddle && r.minX >= o.minX + ZoneOffset ==> r.xVel > 0
  {
    var served := if ball.xVel == 0 then ball.(xVel := ServeSpeed) else ball;
    var back := served.(minY := served.minY - served.yVel);
    var aimed := if o.isPaddle then back.(xVel := PaddleBounce(back.minX, back.xVel, o)) else back;
    aimed.(yVel := -aimed.yVel)
  }

  /** The X-phase loop over `obs`, with the ball already stepped. */
  function SweepX(ball: Box, obs: seq<Box>): (r: Resolved)
    decreases |obs|
    ensures Confined(obs, r.obstacles)
    ensures r.ball == ball.(minX := r.ball.minX, xVel := r.ball.xVel)
    ensures Abs(r.ball.xVel) == Abs(ball.xVel)
  {
    if |obs| == 0 then Resolved(ball, obs)
    else
      var hit := Intersects(ball, obs[0]);
      var ball' := if hit then BounceX(ball, obs[0]) else ball;
      var o' := if hit then Struck(obs[0]) else obs[0];
      var rest := SweepX(ball', obs[1..]);
      Resolved(rest.ball, [o'] + rest.obstacles)
  }

  /** The Y-phase loop over `obs`, with the ball already stepped. */
  function SweepY(ball: Box, obs: seq<Box>): (r: Resolved)
    decreases |obs|
    ensures Confined(obs, r.obstacles)
    ensures r.ball == ball.(minY := r.ball.minY, xVel := r.ball.xVel, yVel := r.ball.yVel)
    ensures Abs(r.ball.yVel) == Abs(ball.yVel)
    ensures ball.xVel != 0 ==> Abs(r.ball.xVel) == Abs(ball.xVel)
    ensures ball.xVel == 0 ==> r.ball.xVel == 0 || Abs(r.ball.xVel) == ServeSpeed
  {
    if |obs| == 0 then Resolved(ball, obs)
    else
      var hit := Intersects(ball, obs[0]);
      var ball' := if hit then BounceY(ball, obs[0]) else ball;
      var o' := if hit then Struck(obs[0]) else obs[0];
      var rest := SweepY(ball', obs[1..]);
      Resolved(rest.ball, [o'] + rest.obstacles)
  }

  /** The X phase: step, then the sweep. */
  function XPhase(ball: Box, obs: seq<Box>): Resolved {
    SweepX(ball.(minX := ball.minX + ball.xVel), obs)
  }

  /** The Y phase: step, then the sweep. */
  function YPhase(ball: Box, obs: seq<Box>): Resolved {
    SweepY(ball.(minY := ball.minY + ball.yVel), obs)
  }

  /** One tick of the ball against the obstacles: X phase, then Y phase. Only the
      ball's position and velocity change; the vertical speed is kept, and so is
      the horizontal one unless a resting ball is served. */
  function Update(ball: Box, obs: seq<Box>): (r: Resolved)
    ensures Confined(obs, r.obstacles)
    ensures r.ball == ball.(minX := r.ball.minX, minY := r.ball.minY,
                            xVel := r.ball.xVel, yVel := r.ball.yVel)
    ensures Abs(r.ball.yVel) == Abs(ball.yVel)
    ensures ball.xVel != 0 ==> Abs(r.ball.xVel) == Abs(ball.xVel)
    ensures ball.xVel == 0 ==> r.ball.xVel == 0 || Abs(r.ball.xVel) == ServeSpeed
  {
    var x := XPhase(ball, obs);
    var y := YPhase(x.ball, x.obstacles);
    ConfinedTransitive(obs, x.obstacles, y.obstacles);
    y
  }

  /** Two confined steps make a confined step (knocking off twice is knocking off once). */
  lemma ConfinedTransitive(a: seq<Box>, b: seq<Box>, c: seq<Box>)
    requires Confined(a, b) && Confined(b, c)
    ensures Confined(a, c)
  {
  }

  /** The ball intersects none of `obs`. */
  predicate ClearOf(ball: Box, obs: seq<Box>) {
    forall i :: 0 <= i < |obs| ==> !Intersects(ball, obs[i])
  }

  /** When the ball touches nothing, the X phase changes nothing: the ball keeps
      its stepped position and its velocity. */
  lemma {:induction false} SweepXMiss(ball: Box, obs: seq<Box>)
    requires ClearOf(ball, obs)
    ensures SweepX(ball, obs) == Resolved(ball, obs)
    decreases |obs|
  {
    if |obs| > 0 {
      SweepXMiss(ball, obs[1..]);
      assert [obs[0]] + obs[1..] == obs;
    }
  }

  /** When the ball touches nothing, the Y phase changes nothing. */
  lemma {:induction false} SweepYMiss(ball: Box, obs: seq<Box>)
    requires ClearOf(ball, obs)
    ensures SweepY(ball, obs) == Resolved(ball, obs)
    decreases |obs|
  {
    if |obs| > 0 {
      SweepYMiss(ball, obs[1..]);
      assert [obs[0]] + obs[1..] == obs;
    }
  }

  /** Free flight: with no obstacle in the way of either step, the ball advances
      by exactly its velocity on both axes and nothing else changes. */
  lemma FreeFlight(ball: Box, obs: seq<Box>)
    requires ClearOf(ball.(minX := ball.minX + ball.xVel), obs)
    requires ClearOf(ball.(minX := ball.minX + ball.xVel, minY := ball.minY + ball.yVel), obs)
    ensures Update(ball, obs)
            == Resolved(ball.(minX := ball.minX + ball.xVel, minY := ball.minY + ball.yVel), obs)
  {
    var stepped := ball.(minX := ball.minX + ball.xVel);
    var dropped := stepped.(minY := stepped.minY + stepped.yVel);
    assert dropped == ball.(minX := ball.minX + ball.xVel, minY := ball.minY + ball.yVel);
    SweepXMiss(stepped, obs);
    SweepYMiss(dropped, obs);
    calc {
      Update(ball, obs);
      YPhase(XPhase(ball, obs).ball, XPhase(ball, obs).obstacles);
      { assert XPhase(ball, obs) == Resolved(stepped, obs); }
      YPhase(stepped, obs);
      SweepY(dropped, obs);
    }
  }

  /** A ball clear of a list is clear of each of its suffixes. */
  lemma ClearOfSuffix(ball: Box, obs: seq<Box>, n: nat)
    requires n <= |obs| && ClearOf(ball, obs)
    ensures ClearOf(ball, obs[n..])
  {
    var tail := obs[n..];
    forall i | 0 <= i < |tail| ensures !Intersects(ball, tail[i]) {
      assert tail[i] == obs[n + i];
    }
  }

  /** A ball clear of `obs` is clear wherever it moves to with the same position. */
  lemma ClearOfMoved(ball: Box, ball': Box, obs: seq<Box>)
    requires ClearOf(ball, obs)
    requires ball'.minX == ball.minX && ball'.minY == ball.minY
    requires ball'.width == ball.width && ball'.height == ball.height
    ensures ClearOf(ball', obs)
  {
    forall i | 0 <= i < |obs| ensures !Intersects(ball', obs[i]) {
      IntersectsIgnoresMotion(ball, ball', obs[i]);
    }
  }

  /** Updating element `j` of a non-empty list is updating its tail after the head. */
  lemma ConsUpdate(s: seq<Box>, j: nat, v: Box)
    requires j < |s|
    ensures j == 0 ==> [v] + s[1..] == s[j := v]
    ensures j > 0 ==> [s[0]] + s[1..][j - 1 := v] == s[j := v]
  {
  }

  /** The X sweep reaches its first hit `obs[k]` with the ball untouched; when the
      undone ball is clear of everything after it, that hit is the only one. */
  lemma {:induction false} SweepXFirstHit(ball: Box, obs: seq<Box>, k: nat)
    requires k < |obs|
    requires forall i :: 0 <= i < k ==> !Intersects(ball, obs[i])
    requires Intersects(ball, obs[k])
    requires ClearOf(BounceX(ball, obs[k]), obs[k + 1..])
    ensures SweepX(ball, obs) == Resolved(BounceX(ball, obs[k]), obs[k := Struck(obs[k])])
    decreases k
  {
    var tail := obs[1..];
    if k == 0 {
      SweepXMiss(BounceX(ball, obs[0]), tail);
      ConsUpdate(obs, 0, Struck(obs[0]));
    } else {
      assert tail[k - 1] == obs[k];
      assert tail[k..] == obs[k + 1..];
      assert forall i :: 0 <= i < k - 1 ==> tail[i] == obs[i + 1];
      SweepXFirstHit(ball, tail, k - 1);
      assert !Intersects(ball, obs[0]);
      var rest := SweepX(ball, tail);
      assert SweepX(ball, obs) == Resolved(rest.ball, [obs[0]] + rest.obstacles);
      ConsUpdate(obs, k, Struck(obs[k]));
    }
  }

  /** The Y-phase counterpart of `SweepXFirstHit`. */
  lemma {:induction false} SweepYFirstHit(ball: Box, obs: seq<Box>, k: nat)
    requires k < |obs|
    requires forall i :: 0 <= i < k ==> !Intersects(ball, obs[i])
    requires Intersects(ball, obs[k])
    requires ClearOf(BounceY(ball, obs[k]), obs[k + 1..])
    ensures SweepY(ball, obs) == Resolved(BounceY(ball, obs[k]), obs[k := Struck(obs[k])])
    decreases k
  {
    var tail := obs[1..];
    if k == 0 {
      SweepYMiss(BounceY(ball, obs[0]), tail);
      ConsUpdate(obs, 0, Struck(obs[0]));
    } else {
      assert tail[k - 1] == obs[k];
      assert tail[k..] == obs[k + 1..];
      assert forall i :: 0 <= i < k - 1 ==> tail[i] == obs[i + 1];
      SweepYFirstHit(ball, tail, k - 1);
      assert !Intersects(ball, obs[0]);
      var rest := SweepY(ball, tail);
      assert SweepY(ball, obs) == Resolved(rest.ball, [obs[0]] + rest.obstacles);
      ConsUpdate(obs, k, Struck(obs[k]));
    }
  }

  /** A single X-phase hit. The ball starts clear of every obstacle, and after its
      step the first obstacle it meets is `obs[k]`. Then the step is undone, the
      velocity is reversed (or set by the paddle rule), `obs[k]` is struck, and
      nothing else happens in this phase. */
  lemma SweepXSingleHit(start: Box, obs: seq<Box>, k: nat)
    requires ClearOf(start, obs)
    requires k < |obs|
    requires forall i :: 0 <= i < k ==> !Intersects(start.(minX := start.minX + start.xVel), obs[i])
    requires Intersects(start.(minX := start.minX + start.xVel), obs[k])
    ensures var r := SweepX(start.(minX := start.minX + start.xVel), obs);
            && r.obstacles == obs[k := Struck(obs[k])]
            && (!obs[k].isPaddle ==> r.ball == start.(xVel := -start.xVel))
            && (obs[k].isPaddle ==> r.ball == start.(xVel := PaddleBounce(start.minX, start.xVel, obs[k])))
  {
    var stepped := start.(minX := start.minX + start.xVel);
    var back := BounceX(stepped, obs[k]);
    ClearOfSuffix(start, obs, k + 1);
    ClearOfMoved(start, back, obs[k + 1..]);
    SweepXFirstHit(stepped, obs, k);
  }

  /** A single Y-phase hit, as for the X phase; in addition a ball with no
      horizontal motion is served at `ServeSpeed` before the paddle rule applies,
      and the vertical velocity is always reversed. */
  lemma SweepYSingleHit(start: Box, obs: seq<Box>, k: nat)
    requires ClearOf(start, obs)
    requires k < |obs|
    requires forall i :: 0 <= i < k ==> !Intersects(start.(minY := start.minY + start.yVel), obs[i])
    requires Intersects(start.(minY := start.minY + start.yVel), obs[k])
    ensures var r := SweepY(start.(minY := start.minY + start.yVel), obs);
            var v := if start.xVel == 0 then ServeSpeed else start.xVel;
            && r.obstacles == obs[k := Struck(obs[k])]
            && r.ball.minY == start.minY
            && r.ball.yVel == -start.yVel
            && (!obs[k].isPaddle ==> r.ball == start.(xVel := v, yVel := -start.yVel))
            && (obs[k].isPaddle ==> r.ball == start.(xVel := PaddleBounce(start.minX, v, obs[k]), yVel := -start.yVel))
  {
    var stepped := start.(minY := start.minY + start.yVel);
    var back := BounceY(stepped, obs[k]);
    ClearOfSuffix(start, obs, k + 1);
    ClearOfMoved(start, back, obs[k + 1..]);
    SweepYFirstHit(stepped, obs, k);
  }

  /** The ball overlaps at least one of `obs`. */
  predicate Touches(ball: Box, obs: seq<Box>) {
    exists i :: 0 <= i < |obs| && Intersects(ball, obs[i])
  }

  /** Touching a non-empty list is touching its head or its tail. */
  lemma TouchesUnfold(ball: Box, obs: seq<Box>)
    requires |obs| > 0
    ensures Touches(ball, obs) <==> Intersects(ball, obs[0]) || Touches(ball, obs[1..])
  {
    if Touches(ball, obs) && !Intersects(ball, obs[0]) {
      var i :| 0 <= i < |obs| && Intersects(ball, obs[i]);
      assert obs[1..][i - 1] == obs[i];
    }
    if Touches(ball, obs[1..]) {
      var i :| 0 <= i < |obs[1..]| && Intersects(ball, obs[1..][i]);
      assert obs[1..][i] == obs[i + 1];
    }
  }

  /** The serve mechanic: a ball with no horizontal motion leaves the Y phase
      with horizontal motion exactly when its stepped position touches some
      obstacle, and then with speed `ServeSpeed`. */
  lemma {:induction false} ServeOnContact(ball: Box, obs: seq<Box>)
    requires ball.xVel == 0
    ensures SweepY(ball, obs).ball.xVel != 0 <==> Touches(ball, obs)
    ensures SweepY(ball, obs).ball.xVel != 0 ==> Abs(SweepY(ball, obs).ball.xVel) == ServeSpeed
    decreases |obs|
  {
    if |obs| > 0 {
      TouchesUnfold(ball, obs);
      if Intersects(ball, obs[0]) {
        var ball' := BounceY(ball, obs[0]);
        assert SweepY(ball, obs).ball == SweepY(ball', obs[1..]).ball;
        assert Abs(ball'.xVel) == ServeSpeed;
      } else {
        assert SweepY(ball, obs).ball == SweepY(ball, obs[1..]).ball;
        ServeOnContact(ball, obs[1..]);
      }
    }
  }

  /** A knocked-off obstacle cannot touch a ball that stays below the `Gone` row. */
  lemma GoneOutOfReach(ball: Box, o: Box)
    requires 0 < o.height && Gone + o.height <= ball.minY
    ensures !Intersects(ball, o.(minY := Gone))
  {
    assert !IntervalsOverlap(ball.minY, ball.MaxY(), Gone, Gone + o.height);
  }

  /** Every obstacle is solid vertically and its knocked-off copy lies above `y`. */
  predicate GoneRowAbove(obs: seq<Box>, y: int) {
    forall i :: 0 <= i < |obs| ==> 0 < obs[i].height && Gone + obs[i].height <= y
  }

  /** A row above `y` is above every lower point too. */
  lemma GoneRowAboveLower(obs: seq<Box>, y: int, y': int)
    requires GoneRowAbove(obs, y) && y <= y'
    ensures GoneRowAbove(obs, y')
  {
  }

  /** A confined change keeps obstacle heights, so the `Gone` row stays above. */
  lemma GoneRowAboveConfined(before: seq<Box>, after: seq<Box>, y: int)
    requires GoneRowAbove(before, y) && Confined(before, after)
    ensures GoneRowAbove(after, y)
  {
    assert forall i :: 0 <= i < |before| ==> after[i].height == before[i].height;
  }

  /** A ball clear of some obstacles stays clear of them after a confined
      change, as long as the knocked-off row is out of its reach. */
  lemma ClearOfConfined(ball: Box, before: seq<Box>, after: seq<Box>)
    requires ClearOf(ball, before) && Confined(before, after)
    requires GoneRowAbove(before, ball.minY)
    ensures ClearOf(ball, after)
  {
    forall i | 0 <= i < |after| ensures !Intersects(ball, after[i]) {
      if after[i] != before[i] {
        GoneOutOfReach(ball, before[i]);
      }
    }
  }

  /** During a sweep whose step is undone to a position clear of `obs`, the ball
      ends either at its stepped position (having touched nothing) or back at the
      pre-step position, and in both cases clear of every obstacle of `obs`. */
  lemma {:induction false} SweepXEndsClear(ball: Box, obs: seq<Box>)
    requires ClearOf(ball.(minX := ball.minX - ball.xVel), obs)
    ensures var r := SweepX(ball, obs);
            && (r.ball.minX == ball.minX || r.ball.minX == ball.minX - ball.xVel)
            && ClearOf(r.ball, obs)
    decreases |obs|
  {
    if |obs| > 0 {
      var home := ball.(minX := ball.minX - ball.xVel);
      assert ClearOf(home, obs[1..]) by {
        forall i | 0 <= i < |obs[1..]| ensures !Intersects(home, obs[1..][i]) {
          assert obs[1..][i] == obs[i + 1];
        }
      }
      if Intersects(ball, obs[0]) {
        var back := BounceX(ball, obs[0]);
        assert ClearOf(back, obs[1..]) by {
          forall i | 0 <= i < |obs[1..]| ensures !Intersects(back, obs[1..][i]) {
            IntersectsIgnoresMotion(home, back, obs[1..][i]);
          }
        }
        SweepXMiss(back, obs[1..]);
        forall i | 0 <= i < |obs| ensures !Intersects(back, obs[i]) {
          IntersectsIgnoresMotion(home, back, obs[i]);
        }
      } else {
        SweepXEndsClear(ball, obs[1..]);
        var r := SweepX(ball, obs[1..]);
        forall i | 0 <= i < |obs| ensures !Intersects(r.ball, obs[i]) {
          if i == 0 {
            if r.ball.minX == ball.minX {
              IntersectsIgnoresMotion(ball, r.ball, obs[0]);
            } else {
              IntersectsIgnoresMotion(home, r.ball, obs[0]);
            }
          } else {
            assert obs[1..][i - 1] == obs[i];
          }
        }
      }
    }
  }

  /** The Y-phase counterpart of `SweepXEndsClear`. */
  lemma {:induction false} SweepYEndsClear(ball: Box, obs: seq<Box>)
    requires ClearOf(ball.(minY := ball.minY - ball.yVel), obs)
    ensures var r := SweepY(ball, obs);
            && (r.ball.minY == ball.minY || r.ball.minY == ball.minY - ball.yVel)
            && ClearOf(r.ball, obs)
    decreases |obs|
  {
    if |obs| > 0 {
      var home := ball.(minY := ball.minY - ball.yVel);
      assert ClearOf(home, obs[1..]) by {
        forall i | 0 <= i < |obs[1..]| ensures !Intersects(home, obs[1..][i]) {
          assert obs[1..][i] == obs[i + 1];
        }
      }
      if Intersects(ball, obs[0]) {
        var back := BounceY(ball, obs[0]);
        assert ClearOf(back, obs[1..]) by {
          forall i | 0 <= i < |obs[1..]| ensures !Intersects(back, obs[1..][i]) {
            IntersectsIgnoresMotion(home, back, obs[1..][i]);
          }
        }
        SweepYMiss(back, obs[1..]);
        forall i | 0 <= i < |obs| ensures !Intersects(back, obs[i]) {
          IntersectsIgnoresMotion(home, back, obs[i]);
        }
      } else {
        SweepYEndsClear(ball, obs[1..]);
        var r := SweepY(ball, obs[1..]);
        forall i | 0 <= i < |obs| ensures !Intersects(r.ball, obs[i]) {
          if i == 0 {
            if r.ball.minY == ball.minY {
              IntersectsIgnoresMotion(ball, r.ball, obs[0]);
            } else {
              IntersectsIgnoresMotion(home, r.ball, obs[0]);
            }
          } else {
            assert obs[1..][i - 1] == obs[i];
          }
        }
      }
    }
  }

  /** The X phase of a ball starting clear ends clear of the resulting obstacles. */
  lemma XPhaseKeepsBallClear(ball: Box, obs: seq<Box>)
    requires ClearOf(ball, obs) && GoneRowAbove(obs, ball.minY)
    ensures ClearOf(XPhase(ball, obs).ball, XPhase(ball, obs).obstacles)
    ensures XPhase(ball, obs).ball.minY == ball.minY
  {
    var stepped := ball.(minX := ball.minX + ball.xVel);
    assert stepped.(minX := stepped.minX - stepped.xVel) == ball;
    SweepXEndsClear(stepped, obs);
    var x := SweepX(stepped, obs);
    ClearOfConfined(x.ball, obs, x.obstacles);
  }

  /** The Y phase of a ball starting clear ends clear of the resulting obstacles. */
  lemma YPhaseKeepsBallClear(ball: Box, obs: seq<Box>)
    requires ClearOf(ball, obs) && GoneRowAbove(obs, ball.minY + Min(0, ball.yVel))
    ensures ClearOf(YPhase(ball, obs).ball, YPhase(ball, obs).obstacles)
  {
    var dropped := ball.(minY := ball.minY + ball.yVel);
    assert dropped.(minY := dropped.minY - dropped.yVel) == ball;
    SweepYEndsClear(dropped, obs);
    var y := SweepY(dropped, obs);
    GoneRowAboveLower(obs, ball.minY + Min(0, ball.yVel), y.ball.minY);
    ClearOfConfined(y.ball, obs, y.obstacles);
  }

  /** The ball keeps clear of every obstacle from tick to tick: if it starts clear
      of all of them and the knocked-off row lies out of its reach, then after
      `Update` it intersects none of the resulting obstacles. */
  lemma UpdateKeepsBallClear(ball: Box, obs: seq<Box>)
    requires ClearOf(ball, obs)
    requires GoneRowAbove(obs, ball.minY + Min(0, ball.yVel))
    ensures ClearOf(Update(ball, obs).ball, Update(ball, obs).obstacles)
  {
    GoneRowAboveLower(obs, ball.minY + Min(0, ball.yVel), ball.minY);
    XPhaseKeepsBallClear(ball, obs);
    var x := XPhase(ball, obs);
    GoneRowAboveConfined(obs, x.obstacles, ball.minY + Min(0, ball.yVel));
    YPhaseKeepsBallClear(x.ball, x.obstacles);
    assert Update(ball, obs) == YPhase(x.ball, x.obstacles);
  }

  /** The second-undo quirk: a ball wedged so that, after its first undo, it
      still overlaps the next obstacle is undone a second time with the already
      reversed velocity. It ends the phase at its stepped position with its
      velocity as before, overlapping both obstacles. */
  lemma WedgedBallUndoesTwice()
    ensures var stepped := DefaultBox.(minX := 4, minY := 0, width := 10, height := 10,
                                       xVel := 4, isBreakable := false);
            var a := DefaultBox.(minX := 12, minY := 0, width := 10, height := 10, isBreakable := false);
            var b := DefaultBox.(minX := 5, minY := 0, width := 10, height := 10, isBreakable := false);
            && SweepX(stepped, [a, b]) == Resolved(stepped, [a, b])
            && Intersects(stepped, a) && Intersects(stepped, b)
  {
    var stepped := DefaultBox.(minX := 4, minY := 0, width := 10, height := 10,
                               xVel := 4, isBreakable := false);
    var a := DefaultBox.(minX := 12, minY := 0, width := 10, height := 10, isBreakable := false);
    var b := DefaultBox.(minX := 5, minY := 0, width := 10, height := 10, isBreakable := false);
    var back := BounceX(stepped, a);
    assert back == stepped.(minX := 0, xVel := -4);
    assert Intersects(back, b);
    assert BounceX(back, b) == stepped;
    assert [a, b][1..] == [b];
    assert SweepX(stepped, [b][1..]) == Resolved(stepped, []);
  }
}

=== FILE: session.dfy ===
/**
  The game session (`Breakout` in blockbreaker.js): the initial board, the two
  resets, and the per-tick `update` that moves the paddle from the key state,
  passes three early-return gates, checks for a lost ball and a cleared board,
  and finally moves the ball against the paddle, the blocks and three
  canvas-edge obstacles built afresh for the tick.
 */
module Session {
  import opened Geometry
  import opened Resolver

  const Width := 640
  const Height := 480
  const PaddleStep := 6
  const Rows := 4
  const Cols := 10
  const BlockCount := Rows * Cols
  const StartLives := 3

  /** The five keys the tick reads: ArrowLeft, ArrowRight, p, r and q. */
  datatype Keys = Keys(left: bool, right: bool, pause: bool, restart: bool, start: bool)

  /** The outcome shown on the replay overlay (the source's `winner`, 1 or 2,
      initially unset). */
  datatype Winner = Undecided | PlayerWon | PlayerLost

  datatype Game = Game(
    ball: Box,
    paddle: Box,
    blocks: seq<Box>,
    lives: int,
    loadGame: bool,
    gameOver: bool,
    paused: bool,
    replayGame: bool,
    winner: Winner)

  /** The ball as constructed: 15 x 15 at the serve spot, falling straight down. */
  const InitialBall := DefaultBox.(minX := Width / 2, minY := 200, width := 15, height := 15,
                                   xVel := 0, yVel := 4, isBall := true)

  /** The paddle as constructed: 120 x 10, 50 pixels above the bottom edge. */
  const InitialPaddle := DefaultBox.(minX := Width / 2 - 55, minY := Height - 50,
                                     width := 120, height := 10,
                                     isPaddle := true, isBreakable := false)

  function GridX(k: nat): int { 10 + (k % Cols) * 62 }

  function GridY(k: nat): int { 45 + (k / Cols) * 35 }

  /** Block `k` of the grid, row `k / Cols`, column `k % Cols`. */
  function GridBlock(k: nat): Box {
    DefaultBox.(minX := GridX(k), minY := GridY(k), width := 60, height := 25,
                isPaddle := false, isBall := false, isBreakable := true, isActive := true)
  }

  function InitialBlocks(): seq<Box> {
    seq(BlockCount, k requires 0 <= k => GridBlock(k))
  }

  /** The three canvas edges the ball bounces off: top, left and right. There is
      no bottom edge, so a ball that gets past the paddle leaves the canvas. They
      are breakable, as every freshly constructed box is. */
  function Edges(): (r: seq<Box>)
    ensures |r| == 3
    ensures forall i :: 0 <= i < |r| ==> r[i].Solid() && r[i].isBreakable && !r[i].isPaddle
  {
    [ DefaultBox.(minX := 0, minY := -10, width := Width, height := 10),
      DefaultBox.(minX := -10, minY := 0, width := 10, height := Height),
      DefaultBox.(minX := Width, minY := 0, width := 10, height := Height) ]
  }

  /** The edges stop a ball leaving the canvas upwards or sideways, but a ball
      that is inside the canvas, or wholly below it, touches none of them. */
  lemma EdgesLeaveBottomOpen(ball: Box)
    requires ball.Solid()
    ensures 0 <= ball.minX && ball.MaxX() <= Width && 0 <= ball.minY ==> ClearOf(ball, Edges())
    ensures ball.minY >= Height ==> ClearOf(ball, Edges())
    ensures -10 < ball.minY < 0 && ball.minX < Width && 0 < ball.MaxX() ==>
              Intersects(ball, Edges()[0])
    ensures -10 < ball.minX < 0 && ball.minY < Height && 0 < ball.MaxY() ==>
              Intersects(ball, Edges()[1])
    ensures Width < ball.MaxX() < Width + 10 && ball.minY < Height && 0 < ball.MaxY() ==>
              Intersects(ball, Edges()[2])
  {
  }

  /** The obstacle list of a tick: paddle, blocks in order, then the edges. */
  function Obstacles(g: Game): (r: seq<Box>)
    ensures |r| == |g.blocks| + 4
    ensures r[0] == g.paddle
    ensures forall k :: 0 <= k < |g.blocks| ==> r[k + 1] == g.blocks[k]
    ensures r[|g.blocks| + 1..] == Edges()
  {
    [g.paddle] + g.blocks + Edges()
  }

  /** The session as constructed: intro overlay up, three lives. */
  function Init(): (r: Game)
    ensures Valid(r) && !Cleared(r.blocks)
    ensures r.loadGame && !r.paused && !r.replayGame && r.winner == Undecided
  {
    FreshBoardNotCleared();
    Game(InitialBall, InitialPaddle, InitialBlocks(), StartLives,
         true, false, false, false, Undecided)
  }

  /** The ball back at the serve spot, falling straight down. */
  function ServeBall(ball: Box): Box {
    ball.(minX := Width / 2, minY := 200, xVel := 0, yVel := 4)
  }

  /** The paddle back at its starting place. */
  function HomePaddle(paddle: Box): Box {
    paddle.(minX := Width / 2 - 55, minY := Height - 50)
  }

  /** The first `BlockCount` blocks back at their grid places and active. */
  function ResetBlocks(blocks: seq<Box>): (r: seq<Box>)
    ensures |r| == |blocks|
    ensures forall k :: BlockCount <= k < |blocks| ==> r[k] == blocks[k]
    ensures forall k :: 0 <= k < |blocks| && k < BlockCount ==>
              r[k].minX == GridX(k) && r[k].minY == GridY(k)
    ensures forall k :: 0 <= k < |blocks| && k < BlockCount ==>
              r[k] == blocks[k].(minX := r[k].minX, minY := r[k].minY, isActive := true)
  {
    seq(|blocks|, k requires 0 <= k < |blocks| =>
      if k < BlockCount then blocks[k].(minX := GridX(k), minY := GridY(k), isActive := true)
      else blocks[k])
  }

  /** `resetGame`: ball, paddle and blocks back to the start, three lives, and
      the replay overlay up. */
  function ResetGame(g: Game): (r: Game)
    ensures r == g.(ball := r.ball, paddle := r.paddle, blocks := r.blocks,
                    gameOver := false, replayGame := true, lives := StartLives)
    ensures r.ball == g.ball.(minX := 320, minY := 200, xVel := 0, yVel := 4)
    ensures r.paddle == g.paddle.(minX := 265, minY := 430)
    ensures |r.blocks| == |g.blocks|
    ensures BlocksOnGrid(g.blocks) ==> r.blocks == InitialBlocks()
    ensures Valid(g) ==> Valid(r) && r.ball == Init().ball && r.paddle == Init().paddle
                         && r.blocks == Init().blocks
  {
    g.(ball := ServeBall(g.ball), paddle := HomePaddle(g.paddle),
       blocks := ResetBlocks(g.blocks),
       gameOver := false, replayGame := true, lives := StartLives)
  }

  /** `resetBall`: ball and paddle back to the start, not paused. */
  function ResetBall(g: Game): (r: Game)
    ensures r == g.(ball := r.ball, paddle := r.paddle, gameOver := false, paused := false)
    ensures Valid(g) ==> Valid(r) && r.ball == Init().ball && r.paddle == Init().paddle
    ensures r.ball == g.ball.(minX := 320, minY := 200, xVel := 0, yVel := 4)
    ensures r.paddle == g.paddle.(minX := 265, minY := 430)
  {
    g.(ball := ServeBall(g.ball), paddle := HomePaddle(g.paddle),
       gameOver := false, paused := false)
  }

  /** Arrow-key paddle motion: left first, then right, each clamped to the canvas. */
  function MovePaddle(paddle: Box, keys: Keys): (r: Box)
    ensures r == paddle.(minX := r.minX)
    ensures 0 <= paddle.minX <= Width - paddle.width ==> 0 <= r.minX <= Width - paddle.width
    ensures !keys.left && !keys.right ==> r == paddle
    ensures keys.left && !keys.right ==> r.minX == Max(0, paddle.minX - PaddleStep)
    ensures keys.right && !keys.left ==> r.minX == Min(Width - paddle.width, paddle.minX + PaddleStep)
    ensures keys.left && keys.right ==>
              r.minX == Min(Width - paddle.width, Max(0, paddle.minX - PaddleStep) + PaddleStep)
  {
    var p := if keys.left then
               var x := paddle.minX - PaddleStep;
               paddle.(minX := if x < 0 then 0 else x)
             else paddle;
    if keys.right then
      var x := p.minX + PaddleStep;
      p.(minX := if x + p.width > Width then Width - p.width else x)
    else p
  }

  /** The ball's bottom edge is below the canvas. */
  predicate BallLost(ball: Box) {
    ball.minY + ball.height > Height
  }

  /** Number of blocks at the `Gone` row, counted front to back. */
  function GoneCount(blocks: seq<Box>): (n: nat)
    ensures n <= |blocks|
  {
    if |blocks| == 0 then 0
    else GoneCount(blocks[..|blocks| - 1]) + (if blocks[|blocks| - 1].minY == Gone then 1 else 0)
  }

  /** The win test of a tick: some blocks, and every one of them counted as gone. */
  predicate Cleared(blocks: seq<Box>) {
    |blocks| > 0 && GoneCount(blocks) == |blocks|
  }

  /** A lost ball: one life fewer; at zero the game is lost and fully reset;
      either way ball and paddle go back to the start. */
  function LoseLife(g: Game): (r: Game)
    ensures r.ball == ServeBall(g.ball) && r.paddle == HomePaddle(g.paddle)
    ensures !r.paused && !r.gameOver
    ensures g.lives != 1 ==> r.lives == g.lives - 1 && r.blocks == g.blocks
                             && r.winner == g.winner && r.replayGame == g.replayGame
    ensures g.lives == 1 ==> r.lives == StartLives && r.blocks == ResetBlocks(g.blocks)
                             && r.winner == PlayerLost && r.replayGame
  {
    var g1 := g.(lives := g.lives - 1);
    var g2 := if g1.lives == 0 then ResetGame(g1.(winner := PlayerLost, replayGame := true)) else g1;
    ResetBall(g2)
  }

  /** A cleared board: the game is won and fully reset. */
  function Win(g: Game): (r: Game)
    ensures r.winner == PlayerWon && r.replayGame && !r.gameOver && r.lives == StartLives
    ensures r.paused == g.paused && r.loadGame == g.loadGame
    ensures BlocksOnGrid(g.blocks) ==> r.blocks == InitialBlocks()
  {
    ResetGame(g.(gameOver := true, replayGame := true, winner := PlayerWon))
  }

  /** The checks that run before the ball moves: lost ball first, then the win test. */
  function Judge(g: Game): (r: Game)
    ensures !BallLost(g.ball) && !Cleared(g.blocks) ==> r == g
    ensures BallLost(g.ball) || Cleared(g.blocks) ==>
              && r.ball == g.ball.(minX := 320, minY := 200, xVel := 0, yVel := 4)
              && r.paddle == g.paddle.(minX := 265, minY := 430)
              && !r.gameOver
    ensures r.loadGame == g.loadGame && (!g.paused ==> !r.paused)
    ensures |r.blocks| == |g.blocks|
  {
    var g1 := if BallLost(g.ball) then LoseLife(g) else g;
    if Cleared(g1.blocks) then Win(g1) else g1
  }

  /** The ball moves against paddle, blocks and edges; struck blocks (and, were
      it breakable, the paddle) are read back out of the obstacle list. */
  function Advance(g: Game): (r: Game)
    ensures r == g.(ball := r.ball, paddle := r.paddle, blocks := r.blocks)
    ensures |r.blocks| == |g.blocks|
    ensures SameOrGone(g.paddle, r.paddle)
    ensures !g.paddle.isBreakable ==> r.paddle == g.paddle
    ensures Confined(g.blocks, r.blocks)
  {
    var res := Update(g.ball, Obstacles(g));
    g.(ball := res.ball, paddle := res.obstacles[0], blocks := res.obstacles[1..|g.blocks| + 1])
  }

  /** One tick (`update`): paddle motion, then the pause, replay and intro gates
      in that order, each of which may end the tick early, then the checks and
      the ball's motion. */
  function Step(g: Game, keys: Keys): (r: Game)
    ensures r.paused == (if keys.pause && !g.gameOver then !g.paused else g.paused)
    ensures !Runs(g, keys) && r.paused ==> r.replayGame == g.replayGame
    ensures !Runs(g, keys) && !r.paused ==> r.replayGame == (g.replayGame && !keys.restart)
    ensures !Runs(g, keys) ==> r.loadGame == g.loadGame
    ensures !Runs(g, keys) ==>
              r == g.(paddle := MovePaddle(g.paddle, keys), paused := r.paused,
                      replayGame := r.replayGame, loadGame := r.loadGame)
    ensures Runs(g, keys) ==> !r.paused && !r.loadGame
    ensures |r.blocks| == |g.blocks|
  {
    var g1 := g.(paddle := MovePaddle(g.paddle, keys),
                 paused := if keys.pause && !g.gameOver then !g.paused else g.paused);
    if g1.paused then g1
    else
      var g2 := if keys.restart then g1.(replayGame := false) else g1;
      if g2.replayGame then g2
      else
        var g3 := if keys.start then g2.(loadGame := false) else g2;
        if g3.loadGame then g3
        else Advance(Judge(g3))
  }

  /** The tick gets past all three gates. */
  predicate Runs(g: Game, keys: Keys) {
    && (if keys.pause && !g.gameOver then g.paused else !g.paused)
    && (g.replayGame ==> keys.restart)
    && (g.loadGame ==> keys.start)
  }

  /** A tick that ends at one of the gates moves the paddle at most: ball,
      blocks, lives and outcome are left as they were. */
  lemma GatedTickFreezesPlay(g: Game, keys: Keys)
    requires !Runs(g, keys)
    ensures var r := Step(g, keys);
            && r.ball == g.ball && r.blocks == g.blocks
            && r.lives == g.lives && r.winner == g.winner
            && r.paddle == MovePaddle(g.paddle, keys)
  {
  }

  /** A tick that gets past the gates clears all three gate flags, then judges
      the board and moves the ball. */
  lemma RunningTick(g: Game, keys: Keys)
    requires Runs(g, keys)
    ensures Step(g, keys)
            == Advance(Judge(g.(paddle := MovePaddle(g.paddle, keys), paused := false,
                                replayGame := false, loadGame := false)))
  {
  }

  /** The blocks are the grid, each block either at its place or knocked off. */
  predicate BlocksOnGrid(blocks: seq<Box>) {
    && |blocks| == BlockCount
    && forall k :: 0 <= k < BlockCount ==>
         blocks[k] == GridBlock(k) || blocks[k] == GridBlock(k).(minY := Gone)
  }

  /** What holds between ticks: lives in 1..3, the paddle of its constructed
      shape on the canvas, the ball of its constructed shape with speeds 0 or 4
      across and 4 down or up, the blocks on the grid, and `gameOver` down. */
  predicate Valid(g: Game) {
    && 1 <= g.lives <= StartLives
    && !g.gameOver
    && g.paddle == InitialPaddle.(minX := g.paddle.minX)
    && 0 <= g.paddle.minX <= Width - g.paddle.width
    && g.ball == InitialBall.(minX := g.ball.minX, minY := g.ball.minY,
                             xVel := g.ball.xVel, yVel := g.ball.yVel)
    && (g.ball.xVel == 0 || Abs(g.ball.xVel) == ServeSpeed)
    && Abs(g.ball.yVel) == 4
    && BlocksOnGrid(g.blocks)
  }

  /** The grid: 40 blocks, none overlapping another, all within the canvas width. */
  lemma GridIsDisjoint()
    ensures |InitialBlocks()| == BlockCount
    ensures forall i, j :: 0 <= i < BlockCount && 0 <= j < BlockCount && i != j ==>
              !Intersects(InitialBlocks()[i], InitialBlocks()[j])
    ensures forall k :: 0 <= k < BlockCount ==>
              0 <= InitialBlocks()[k].minX && InitialBlocks()[k].MaxX() <= Width
  {
    forall i, j | 0 <= i < BlockCount && 0 <= j < BlockCount && i != j
      ensures !Intersects(GridBlock(i), GridBlock(j))
    {
      if i % Cols == j % Cols {
        assert i / Cols != j / Cols;
      }
    }
  }

  /** Resetting a board whose blocks are on the grid restores the constructed board. */
  lemma ResetRestoresGrid(blocks: seq<Box>)
    requires BlocksOnGrid(blocks)
    ensures ResetBlocks(blocks) == InitialBlocks()
  {
  }

  /** The count reaches the number of blocks exactly when every block is gone. */
  lemma {:induction false} GoneCountFull(blocks: seq<Box>)
    ensures GoneCount(blocks) == |blocks| <==> forall i :: 0 <= i < |blocks| ==> blocks[i].minY == Gone
    decreases |blocks|
  {
    if |blocks| > 0 {
      var front := blocks[..|blocks| - 1];
      GoneCountFull(front);
      assert forall i :: 0 <= i < |front| ==> front[i] == blocks[i];
    }
  }

  /** The constructed board is not cleared. */
  lemma FreshBoardNotCleared()
    ensures !Cleared(InitialBlocks())
  {
    GoneCountFull(InitialBlocks());
    assert InitialBlocks()[0].minY != Gone;
  }

  /** The constructed session holds the constructed ball, paddle and grid, and
      three lives. */
  lemma InitIsConstructed()
    ensures Init().ball == InitialBall && Init().paddle == InitialPaddle
    ensures Init().blocks == InitialBlocks() && Init().lives == StartLives
  {
  }

  /** Judging a valid board keeps it valid. */
  lemma JudgeKeepsValid(g: Game)
    requires Valid(g)
    ensures Valid(Judge(g))
  {
    var g1 := if BallLost(g.ball) then LoseLife(g) else g;
    if BallLost(g.ball) && g.lives == 1 {
      ResetRestoresGrid(g.blocks);
    }
    assert Valid(g1);
    if Cleared(g1.blocks) {
      ResetRestoresGrid(g1.blocks);
    }
  }

  /** Moving the ball keeps a valid board valid. */
  lemma AdvanceKeepsValid(g: Game)
    requires Valid(g)
    ensures Valid(Advance(g))
    ensures Advance(g).paddle == g.paddle
  {
    var obs := Obstacles(g);
    var res := Update(g.ball, obs);
    assert obs[0] == g.paddle;
    assert res.obstacles[0] == g.paddle;
    var blocks := res.obstacles[1..|g.blocks| + 1];
    forall k | 0 <= k < BlockCount
      ensures blocks[k] == GridBlock(k) || blocks[k] == GridBlock(k).(minY := Gone)
    {
      assert obs[k + 1] == g.blocks[k];
      assert SameOrGone(obs[k + 1], res.obstacles[k + 1]);
    }
  }

  /** Every tick keeps a valid session valid: in particular lives stay within
      1..3 and the paddle stays on the canvas. */
  lemma StepKeepsValid(g: Game, keys: Keys)
    requires Valid(g)
    ensures Valid(Step(g, keys))
  {
    if Runs(g, keys) {
      var g3 := g.(paddle := MovePaddle(g.paddle, keys), paused := false,
                   replayGame := false, loadGame := false);
      RunningTick(g, keys);
      JudgeKeepsValid(g3);
      AdvanceKeepsValid(Judge(g3));
    }
  }

  /** A lost ball in a running tick costs a life; losing the last one ends the
      round as lost with three fresh lives, the replay overlay up and the
      constructed board. The ball and paddle are first sent back to the start. */
  lemma LostBall(g: Game)
    requires Valid(g) && BallLost(g.ball)
    ensures var j := Judge(g);
            && j.ball == ServeBall(g.ball) && j.paddle == HomePaddle(g.paddle)
            && (g.lives > 1 && !Cleared(g.blocks) ==>
                  j.lives == g.lives - 1 && j.winner == g.winner && j.blocks == g.blocks)
            && (g.lives == 1 ==> j.lives == StartLives && j.winner == PlayerLost
                                 && j.replayGame && j.blocks == InitialBlocks())
  {
    if g.lives == 1 {
      ResetRestoresGrid(g.blocks);
      FreshBoardNotCleared();
    } else if Cleared(g.blocks) {
      ResetRestoresGrid(g.blocks);
    }
  }

  /** A board whose every block is gone, with the ball still in play, ends the
      round as won, with the replay overlay up and the constructed board. */
  lemma ClearedBoard(g: Game)
    requires Valid(g) && !BallLost(g.ball)
    requires forall k :: 0 <= k < |g.blocks| ==> g.blocks[k].minY == Gone
    ensures var j := Judge(g);
            && j.winner == PlayerWon && j.replayGame && !j.gameOver
            && j.lives == StartLives && j.blocks == InitialBlocks()
  {
    GoneCountFull(g.blocks);
    ResetRestoresGrid(g.blocks);
  }

  /** Over a whole tick, lives change only through a lost ball. */
  lemma StepLives(g: Game, keys: Keys)
    requires Valid(g)
    ensures Step(g, keys).lives
            == if !Runs(g, keys) then g.lives
               else if Cleared(g.blocks) then StartLives
               else if BallLost(g.ball) then (if g.lives == 1 then StartLives else g.lives - 1)
               else g.lives
  {
    if Runs(g, keys) {
      RunningTick(g, keys);
      if BallLost(g.ball) && g.lives == 1 {
        ResetRestoresGrid(g.blocks);
        FreshBoardNotCleared();
      }
    }
  }

  /** The session after one tick per key state in `ks`, in order. */
  function StepAll(g: Game, ks: seq<Keys>): Game
    decreases |ks|
  {
    if |ks| == 0 then g else StepAll(Step(g, ks[0]), ks[1..])
  }

  /** A paused session stays paused while `p` is not pressed, however many
      ticks pass, and its ball, blocks, lives and outcome stay as they were. */
  lemma {:induction false} PauseFreezesPlay(g: Game, ks: seq<Keys>)
    requires g.paused
    requires forall i :: 0 <= i < |ks| ==> !ks[i].pause
    ensures var r := StepAll(g, ks);
            && r.paused && r.ball == g.ball && r.blocks == g.blocks
            && r.lives == g.lives && r.winner == g.winner
    decreases |ks|
  {
    if |ks| > 0 {
      var g' := Step(g, ks[0]);
      assert g'.paused && g'.ball == g.ball && g'.blocks == g.blocks
             && g'.lives == g.lives && g'.winner == g.winner;
      assert forall i :: 0 <= i < |ks[1..]| ==> !ks[1..][i].pause;
      PauseFreezesPlay(g', ks[1..]);
    }
  }

  /** The paddle after `n` paddle moves with only the left key held. */
  function HoldLeft(paddle: Box, n: nat): Box
    decreases n
  {
    if n == 0 then paddle
    else HoldLeft(MovePaddle(paddle, Keys(true, false, false, false, false)), n - 1)
  }

  /** Over `n` left moves the paddle goes `n` steps left but stops at 0. */
  lemma {:induction false} HoldLeftStopsAtEdge(paddle: Box, n: nat)
    requires 0 <= paddle.minX
    ensures HoldLeft(paddle, n).minX == Max(0, paddle.minX - n * PaddleStep)
    decreases n
  {
    if n > 0 {
      var p := MovePaddle(paddle, Keys(true, false, false, false, false));
      HoldLeftStopsAtEdge(p, n - 1);
    }
  }

  /** A ball falling onto the paddle left of its left edge plus 55, moving
      right, rebounds up and to the left (the paddle spans 265 to 385). */
  lemma LeftZoneSendsBallLeft()
    ensures var ball := InitialBall.(minX := 310, minY := 412, xVel := 4, yVel := 4);
            Update(ball, [InitialPaddle]).ball == ball.(minX := 314, xVel := -4, yVel := -4)
  {
    var ball := InitialBall.(minX := 310, minY := 412, xVel := 4, yVel := 4);
    var stepped := ball.(minX := 314);
    assert !Intersects(stepped, InitialPaddle);
    SweepXMiss(stepped, [InitialPaddle]);
    assert ClearOf(stepped, [InitialPaddle]);
    SweepYSingleHit(stepped, [InitialPaddle], 0);
  }
}
